=== FILE: README.md ===
# Leverage feasibility frontier — risk-evaluation engine in Dafny

This project models the risk-evaluation engine of a leveraged real-estate feasibility sweep. For each loan-to-value ratio (LTV) on a grid, the engine:

- runs a deterministic stress scenario through an interest-only cashflow model (NOI, debt service, net cashflow, DSCR);
- computes the probability of failure over a discrete occupancy × rate-shock distribution by exact enumeration;
- takes the unweighted worst cashflow and DSCR on that distribution's support;
- solves in closed form for the largest rate, and the largest basis-point shock, that keeps DSCR at the minimum;
- marks the LTV admissible when both the stress check and the probability check pass.

All arithmetic is over Dafny `real`, so it is exact. Every `ValueError` path in the modelled core becomes an `Err` of a `Result`, with one `Error` constructor per condition. The two `ValueError`s of preset selection (src/simulate.py:39, 42) are outside the model; see "## Left out".

Modules, leaf to root:

- `Failures` (failures.dfy): the `Error` kinds, `Result`, and `Collect`. `Collect` folds a sequence of already computed results: it returns all their values when every one is Ok, and otherwise the first error in sequence order.
- `Cashflow` (cashflow.dfy): `CashflowModel`, `Noi`, `Interest`, `NetCashflow`, `Dscr`.
- `Grid` (grid.dfy): `LtvGrid`, the arithmetic progression with a tolerant inclusive stop.
- `Resolve` (resolve.dfy): `ImpliedGrossYield` from a preset, and rent and debt normalised to unit price.
- `Solver` (solver.dfy): the shocked rate, the closed-form maximum rate, and the break-even shock in basis points.
- `Weights` (weights.dfy): exact sums and `NormaliseWeights`.
- `Distribution` (distribution.dfy): evaluation of scenario points, the failure probability, and worst-case minima. The failure probability exists twice: as a function, and as a nested-loop method proved equal to that function.
- `Sweep` (sweep.dfy): one row per LTV, the whole sweep, and the "leverage never helps" lemmas.

Inputs the source reads from configuration files are parameters here. These are the operating-cost ratio, the base rate (after any command-line override), the preset, the sweep range, the risk constraints and the two distributions, bundled in `Sweep.Assumptions`.

Source behaviour worth noting, which the model keeps:

- The DSCR raises whenever `rate * debt <= 0` (src/model.py:31), so a zero rate or debt, or a rate and a debt of opposite signs, is an error too.
- A `gross_yield` that is present but not positive raises at once (src/model.py:50-54). There is no fallback to the price/rent pair.
- When the grid count formula gives a negative number, the grid is empty, as `np.arange` of a negative length is (src/model.py:39-40).
- NOI is (1 − c)·R·occ (src/model.py:13-16), so it is non-negative for every cost ratio c ≤ 1, c = 1 included, and non-negative rent and occupancy.

## Model

| member | source | states |
|---|---|---|
| Cashflow.Noi | src/model.py:13-16 | NOI is 0 at zero occupancy, for any cost ratio. It is non-negative when c ≤ 1 and rent and occupancy are non-negative. It is positive when c < 1 and rent and occupancy are positive. |
| Cashflow.Interest | src/model.py:18-20 | Debt service is positive for a positive rate and debt, and 0 when either is 0. At positive debt it is positive exactly when the rate is. |
| Cashflow.NetCashflow | src/model.py:22-23 | Net cashflow plus debt service equals NOI. Net cashflow is negative exactly when debt service exceeds NOI. At zero occupancy it is minus the debt service. |
| Cashflow.Dscr | src/model.py:25-33 | DSCR is an error exactly when interest ≤ 0. It is exactly 0 when NOI ≤ 0. Otherwise it is positive and DSCR × interest = NOI. It is never negative. |
| Cashflow.EmptyPropertyFloor | src/model.py:13-33 | At occupancy 0: NOI = 0, net cashflow = −interest, and DSCR = 0, whatever the cost ratio. |
| Cashflow.DscrMeetsMinimumIff | src/model.py:25-33 | For positive interest and a positive minimum, DSCR ≥ minimum ⇔ NOI ≥ minimum × interest. This includes the zero floor. |
| Cashflow.DscrFallsWithDebt | src/model.py:25-33 | With positive NOI and a positive rate, more debt gives a strictly lower DSCR. |
| Grid.LtvGrid | src/model.py:36-41 | The grid is an error exactly when step ≤ 0. Otherwise it has max(0, floor((stop−start)/step + 1e-12) + 1) points, point i is start + i·step, and the points strictly ascend. |
| Grid.GridHoldsTolerantPoints | src/model.py:39-40 | The i-th progression point is on the grid exactly when it does not exceed stop + 1e-12·step. This is the inclusive, tolerant stop. |
| Grid.SevenPointSweep | src/model.py:36-41 | (0.5, 0.8, 0.05) gives exactly the seven points 0.50 … 0.80. |
| Resolve.ImpliedGrossYield | src/model.py:44-63 | A numeric gross_yield takes priority: it is returned when positive and is an error otherwise. Failing that, a missing price or rent key is an error, a null one is an error, and otherwise the result is rent/price when both are positive and an error otherwise. Every success is positive. |
| Resolve.SixPercentPresets | src/model.py:44-63 | A gross_yield of 0.06, and a 500000 price with 30000 rent, both give 0.06. |
| Resolve.NormalisedRentFromYield | src/model.py:66-68 | Rent divided by a non-zero price recovers the yield. Rent is positive for a positive yield and price. |
| Resolve.NormalisedDebtFromLtv | src/model.py:71-75 | The result is an error exactly when ltv ∉ (0,1). Debt divided by price recovers the LTV, and the debt lies strictly between 0 and a positive price. |
| Resolve.UnitPriceNormalisation | src/simulate.py:119-120 | At unit price, rent is the yield and debt is the LTV. |
| Solver.ScenarioRate | src/simulate.py:123 | The shocked rate exceeds the base rate by exactly shock/10000. It is at least the base rate exactly when the shock is non-negative. |
| Solver.MaxRateForDscr | src/model.py:78-100 | The result is an error exactly when ltv ≤ 0 or min_dscr ≤ 0, and ltv is checked first. Otherwise r_max × (min_dscr × ltv) = NOI. |
| Solver.BreakEvenShockBp | src/model.py:103-111 | The shock is negative exactly when max_rate < base_rate, with no clamping. Shocking the base rate by it lands exactly on max_rate. |
| Solver.RateWithinMaxIffDscrMet | src/model.py:85-100 | For any rate > 0 with ltv, min_dscr > 0: DSCR(R, occ, rate, ltv) ≥ min_dscr ⇔ rate ≤ r_max. This covers the NOI ≤ 0 floor too. |
| Solver.DscrAtMaxRate | src/model.py:78-100 | With positive NOI, r_max > 0 and the DSCR at r_max is exactly min_dscr. |
| Solver.ShockWithinBreakEvenIffDscrMet | src/model.py:103-111 | A shocked rate that stays positive meets min_dscr ⇔ the shock ≤ the break-even shock. |
| Solver.MaxRateFallsWithLtv | src/model.py:96-100 | With positive NOI, a higher LTV gives a strictly lower r_max and a strictly lower break-even shock. |
| Solver.WorkedSolve | src/model.py:78-111 | (c=0.3, R=0.07, ltv=0.7, occ=0.9, m=1) gives r_max = 0.063, which is 130 bp above a 0.05 base rate. |
| Weights.NormaliseWeights | src/model.py:114-124 | Errors come in order: length mismatch, then any negative weight, then sum ≤ 0. There is no error otherwise. On success the values are unchanged, the weights are non-negative and sum to 1, each new weight is the old weight divided by the old sum, and the support is non-empty. |
| Weights.DividedByTotalIsProbability | src/model.py:121-124 | Non-negative weights divided by their positive total are non-negative and sum to exactly 1. |
| Weights.NormaliseIdempotent | src/model.py:121-124 | Re-normalising a normalised distribution returns it unchanged. |
| Distribution.EvaluatePoint | src/simulate.py:70-72 | A scenario point is an error exactly when its shocked rate gives interest ≤ 0. Its DSCR is the cashflow model's DSCR at the shocked rate and is never negative, and its cashflow plus interest equals NOI. |
| Distribution.PointFailsIff | src/simulate.py:70-73 | The failure test (`Fails`, applied by `PointFails` to a defined point): a point fails exactly when it is serviceable and its DSCR is below min_dscr or its cashflow below min_cashflow. With min_dscr > 0 this is NOI < min_dscr × interest or NOI < interest + min_cashflow. |
| Distribution.FailureProbability | src/simulate.py:47-77 | Errors propagate in order: shock normalisation, then occupancy normalisation, then an unserviceable shock. On success the probability lies in [0,1], both supports are non-empty, and every shock is serviceable. |
| Distribution.AccumulateRow | src/simulate.py:69-75 | The inner loop adds exactly the failed mass of one occupancy row, or stops with the interest error exactly when some shock is unserviceable. |
| Distribution.FailureProbabilityOverDistribution | src/simulate.py:59-77 | The nested occupancy × shock loop returns exactly the failure probability, errors included. Each pair is visited once. |
| Distribution.RowFailedMassBounds | src/simulate.py:64-75 | Over probability vectors, one occupancy row's failed mass lies between 0 and that occupancy's weight. |
| Distribution.PairMassOverRawWeights | src/simulate.py:60-75 | After normalisation, pair (i,j)'s entry is occ_w[i]/Σocc_w · shock_w[j]/Σshock_w if it fails and 0 otherwise. |
| Distribution.FailureProbabilityIsFailedJointMass | src/simulate.py:60-77 | The probability is the sum over every row and pair. Pair (i,j) contributes occ_w[i]/Σocc_w · shock_w[j]/Σshock_w if it fails and 0 otherwise. |
| Distribution.NoFailureMeansZero | src/simulate.py:67-77 | If no pair fails, the probability is exactly 0. |
| Distribution.RowFullyFailing | src/simulate.py:67-75 | A row whose positively weighted pairs all fail carries its whole occupancy weight. |
| Distribution.CertainFailureMeansOne | src/simulate.py:60-77 | If every pair of positive joint weight fails, the probability is exactly 1. |
| Distribution.PositiveStaysPositive | src/model.py:119-124 | Re-normalisation keeps exactly the same weights positive. |
| Distribution.Min | src/simulate.py:151-152 | The running minimum is ≤ every entry and equal to some entry. |
| Distribution.GridMin | src/simulate.py:144-152 | The minimum of a matrix is ≤ every entry and equal to some entry. |
| Distribution.WorstCase | src/simulate.py:143-152 | The worst cashflow and the worst DSCR are each ≤ that quantity for every pair of the product, and each equals it for some pair. |
| Sweep.EvaluateRow | src/simulate.py:118-186 | An LTV outside (0,1) is an error. On success the row keeps its LTV and yield, and admissible ⇔ passes_stress ∧ passes_prob. passes_prob ⇔ p_fail ≤ max, and passes_stress ⇔ stress cf ≥ min_cf ∧ stress DSCR ≥ min_dscr. p_fail ∈ [0,1], and the stress DSCR passes ⇔ stress shock ≤ the row's analytic max shock. |
| Sweep.RowErrorOrder | src/simulate.py:118-162 | A row's errors come in build order: an LTV outside (0,1), then a non-positive stress rate (interest error), then the distribution's own error, then min_dscr ≤ 0. |
| Sweep.WorstFields | src/simulate.py:143-152 | A defined row's worst cashflow and worst DSCR are the unweighted minima over the support of the scenario distribution. |
| Sweep.RowEvaluatesIff | src/simulate.py:119-162 | A row is produced exactly when all of these hold (the predicate `RowDefined`): ltv ∈ (0,1), the stress rate is positive, both marginals can be normalised, every shock leaves positive interest at that LTV, and min_dscr > 0. |
| Sweep.StressJudgedLikeDistribution | src/simulate.py:122-126 | The stress point passes exactly when the distribution's failure test would not fail it. |
| Sweep.StressFields | src/simulate.py:122-162 | A row's stress rate is base_rate + stress_shock_bp/10000, and its stress cashflow, stress DSCR and max shock are the cashflow model's and the solver's values at the stress rate and stress occupancy. |
| Sweep.ProbabilityField | src/simulate.py:128-140 | A row's failure probability is the distribution evaluator's value at that LTV. |
| Sweep.SweepRows | src/simulate.py:117-187 | The rows succeed exactly when every LTV's row does. Then there is one row per LTV, in order. Otherwise the error is that of the first failing LTV, and all LTVs before it succeeded. |
| Sweep.RunSweep | src/simulate.py:100-187 | A preset error comes first, then a step error. On success the row count is the grid's point count, row i has LTV start + i·step and the resolved yield, admissible ⇔ both passes, and the LTVs strictly ascend. |
| Sweep.SweepRowIsGridRow | src/simulate.py:117-187 | Row i of a successful sweep is exactly the row built for grid point i, start + i·step, with the resolved yield. |
| Sweep.SweepSucceedsIff | src/simulate.py:117-187 | With a resolved yield and a positive step, the sweep succeeds exactly when the row at every grid point can be built (`RowDefined`). |
| Sweep.OneBadPointAbortsSweep | src/simulate.py:117-187 | One grid LTV whose row errs aborts the whole sweep. |
| Sweep.StressWorsensWithLeverage | src/simulate.py:122-162 | With positive yield, c < 1 and positive stress occupancy, a higher LTV strictly lowers the stress cashflow, the stress DSCR and the max shock. Passing the stress check at the higher LTV implies passing it at the lower one. |
| Sweep.FailureSpreadsWithDebt | src/simulate.py:70-73 | A pair that fails at some debt also fails at any higher debt. |
| Sweep.RowFailedMassGrowsWithDebt | src/simulate.py:67-75 | One occupancy row's failed mass never shrinks as debt grows. |
| Sweep.FailureProbabilityGrowsWithDebt | src/simulate.py:128-140 | The failure probability never decreases as debt grows. |
| Sweep.AdmissibleIsDownwardClosed | src/simulate.py:117-187 | Under the same healthy-stress conditions, an admissible LTV makes every lower positive LTV evaluate and be admissible. The admissible LTVs form a frontier. |

## Left out

- `np.round(grid, 10)` (src/model.py:41): the model is over exact reals, so the grid points are start + i·step unrounded. The 1e-12 tolerance is kept as an exact constant.
- IEEE-754 behaviour: NaN and infinite inputs, and float summation-order effects. Comparisons with NaN, which would let `gy <= 0` pass, are not modelled.
- NumPy `ndim` checks (src/model.py:117): distributions are `seq<real>`, so they are always one-dimensional.
- The `interest_only` flag (src/model.py:11): no alternative debt structure exists, so `CashflowModel` carries only the cost ratio.
- Distribution.WorstCase: requires non-empty supports and that every shock leaves positive interest (`AllServiceable`). The source starts from `np.inf`, which would survive only for an empty support, and its worst-case loop would raise the DSCR `ValueError` for an unserviceable shock (src/simulate.py:150). In the sweep neither case reaches it: the failure probability has already rejected an empty distribution (its weight sum is 0) and raised that same error for an unserviceable shock.
- Resolve.ImpliedGrossYield: non-numeric preset values other than null, such as strings, are not modelled. A present-but-null price or rent, which Python rejects with a `TypeError` from `float(None)`, is `PriceOrRentNotNumeric`.
- `load_assumptions`, `select_preset` with its two `ValueError`s for a missing or unknown preset name, argparse handling with the base-rate override, path constants, DataFrame and CSV writing, and console printing (src/simulate.py:20-44, 80-99, 101, 105, 108-113, 189-197): file, CLI and I/O glue. Their resolved values enter as `Sweep.Assumptions`.
- Pure pass-through row fields: preset name, base rate, stress occupancy and shock, `theta_rent_to_debt`, and `max_failure_probability`.
- src/plots.py: plotting and CSV reading.

=== FILE: cashflow.dfy ===
/** The single-scenario cashflow model: net operating income, interest-only
    debt service, net cashflow and the debt-service coverage ratio (DSCR). */
module Cashflow {
  import opened Failures

  /** The frozen model. Only the operating-cost ratio c varies: debt service
      is always interest-only, so no flag is carried. */
  datatype CashflowModel = CashflowModel(operatingCostRatio: real)

  /** Net operating income (1 - c) * R * occ. */
  function Noi(m: CashflowModel, grossRent: real, occupancy: real): (r: real)
    ensures occupancy == 0.0 ==> r == 0.0
    ensures m.operatingCostRatio <= 1.0 && grossRent >= 0.0 && occupancy >= 0.0 ==> r >= 0.0
    ensures m.operatingCostRatio < 1.0 && grossRent > 0.0 && occupancy > 0.0 ==> r > 0.0
  {
    var margin := 1.0 - m.operatingCostRatio;
    assert margin >= 0.0 && grossRent >= 0.0 ==> margin * grossRent >= 0.0;
    assert margin > 0.0 && grossRent > 0.0 ==> margin * grossRent > 0.0;
    margin * grossRent * occupancy
  }

  /** Annual interest-only debt service r * D. */
  function Interest(rate: real, debt: real): (r: real)
    ensures rate > 0.0 && debt > 0.0 ==> r > 0.0
    ensures rate == 0.0 || debt == 0.0 ==> r == 0.0
    ensures debt > 0.0 ==> (r > 0.0 <==> rate > 0.0)
  {
    rate * debt
  }

  /** Net cashflow: what is left of NOI after debt service. */
  function NetCashflow(m: CashflowModel, grossRent: real, occupancy: real, rate: real, debt: real): (r: real)
    ensures r + Interest(rate, debt) == Noi(m, grossRent, occupancy)
    ensures r < 0.0 <==> Noi(m, grossRent, occupancy) < Interest(rate, debt)
    ensures occupancy == 0.0 ==> r == -Interest(rate, debt)
  {
    Noi(m, grossRent, occupancy) - Interest(rate, debt)
  }

  /** DSCR = NOI / interest. A non-positive interest is an input error; a
      non-positive NOI is floored to exactly 0 rather than a negative ratio. */
  function Dscr(m: CashflowModel, grossRent: real, occupancy: real, rate: real, debt: real): (r: Result<real>)
    ensures r.Err? <==> Interest(rate, debt) <= 0.0
    ensures r.Err? ==> r.error == InterestNotPositive
    ensures r.Ok? ==> r.value >= 0.0
    ensures r.Ok? && Noi(m, grossRent, occupancy) <= 0.0 ==> r.value == 0.0
    ensures r.Ok? && Noi(m, grossRent, occupancy) > 0.0 ==>
              r.value > 0.0 && r.value * Interest(rate, debt) == Noi(m, grossRent, occupancy)
  {
    var noi := Noi(m, grossRent, occupancy);
    var intr := Interest(rate, debt);
    if intr <= 0.0 then Err(InterestNotPositive)
    else if noi <= 0.0 then Ok(0.0)
    else Ok(noi / intr)
  }

  /** An empty property: no NOI, debt service paid entirely out of pocket,
      and a DSCR floored at 0, whatever the cost ratio. */
  lemma EmptyPropertyFloor(m: CashflowModel, grossRent: real, rate: real, debt: real)
    requires Interest(rate, debt) > 0.0
    ensures Noi(m, grossRent, 0.0) == 0.0
    ensures NetCashflow(m, grossRent, 0.0, rate, debt) == -Interest(rate, debt)
    ensures Dscr(m, grossRent, 0.0, rate, debt) == Ok(0.0)
  {
  }

  /** The DSCR threshold test is the cross-multiplied comparison
      NOI >= minDscr * interest, floor included. */
  lemma DscrMeetsMinimumIff(m: CashflowModel, grossRent: real, occupancy: real, rate: real, debt: real, minDscr: real)
    requires Interest(rate, debt) > 0.0
    requires minDscr > 0.0
    ensures Dscr(m, grossRent, occupancy, rate, debt).Ok?
    ensures Dscr(m, grossRent, occupancy, rate, debt).value >= minDscr
            <==> Noi(m, grossRent, occupancy) >= minDscr * Interest(rate, debt)
  {
    var noi := Noi(m, grossRent, occupancy);
    var intr := Interest(rate, debt);
    var d := Dscr(m, grossRent, occupancy, rate, debt).value;
    if noi <= 0.0 {
      assert minDscr * intr > 0.0;
    } else {
      assert d * intr == noi;
      if d >= minDscr {
        assert d * intr >= minDscr * intr;
      } else {
        assert d * intr < minDscr * intr;
      }
    }
  }

  /** At a positive rate, more debt means strictly more debt service. */
  lemma InterestGrowsWithDebt(rate: real, debt1: real, debt2: real)
    requires rate > 0.0 && debt1 < debt2
    ensures Interest(rate, debt1) < Interest(rate, debt2)
  {
    assert rate * debt2 - rate * debt1 == rate * (debt2 - debt1);
  }

  /** With positive NOI and a positive rate, more debt strictly lowers DSCR. */
  lemma DscrFallsWithDebt(m: CashflowModel, grossRent: real, occupancy: real, rate: real, debt1: real, debt2: real)
    requires rate > 0.0 && 0.0 < debt1 < debt2
    requires Noi(m, grossRent, occupancy) > 0.0
    ensures Dscr(m, grossRent, occupancy, rate, debt1).Ok?
    ensures Dscr(m, grossRent, occupancy, rate, debt2).Ok?
    ensures Dscr(m, grossRent, occupancy, rate, debt2).value < Dscr(m, grossRent, occupancy, rate, debt1).value
  {
    var noi := Noi(m, grossRent, occupancy);
    var i1 := Interest(rate, debt1);
    var i2 := Interest(rate, debt2);
    InterestGrowsWithDebt(rate, debt1, debt2);
    var d1 := Dscr(m, grossRent, occupancy, rate, debt1).value;
    var d2 := Dscr(m, grossRent, occupancy, rate, debt2).value;
    assert d1 * i1 == noi && d2 * i2 == noi;
    assert d2 > 0.0 && i1 > 0.0;
    assert d2 * i1 < d2 * i2 by {
      assert d2 * i2 - d2 * i1 == d2 * (i2 - i1);
    }
    assert d1 * i1 - d2 * i1 > 0.0;
    assert (d1 - d2) * i1 == d1 * i1 - d2 * i1;
  }
}

=== FILE: distribution.dfy ===
/** The distribution evaluator: exact enumeration of the occupancy x
    rate-shock Cartesian product, the probability-weighted failure mass and
    the unweighted worst case over the support. The product is walked as
    the source walks it: one row per occupancy value, one entry per shock. */
module Distribution {
  import opened Failures
  import opened Cashflow
  import opened Solver
  import opened Weights

  /** What stays fixed while the distribution is enumerated: the model, rent
      and debt at unit price, and the unshocked base rate. */
  datatype Position = Position(model: CashflowModel, grossRent: real, debt: real, baseRate: real)

  /** The risk thresholds a scenario is judged against. */
  datatype Thresholds = Thresholds(minDscr: real, minCashflow: real)

  /** Net cashflow and DSCR of one scenario point. */
  datatype Outcome = Outcome(cashflow: real, dscr: real)

  /** The shocked rate gives positive interest, so the DSCR is defined. */
  predicate Serviceable(p: Position, shockBp: real)
  {
    Interest(ScenarioRate(p.baseRate, shockBp), p.debt) > 0.0
  }

  predicate AllServiceable(p: Position, shockValues: seq<real>)
  {
    forall j :: 0 <= j < |shockValues| ==> Serviceable(p, shockValues[j])
  }

  /** One scenario point: net cashflow, then DSCR, at base rate + shock / 10000. */
  function EvaluatePoint(p: Position, occupancy: real, shockBp: real): (r: Result<Outcome>)
    ensures r.Err? <==> !Serviceable(p, shockBp)
    ensures r.Err? ==> r.error == InterestNotPositive
    ensures r.Ok? ==> r.value.dscr >= 0.0
    ensures r.Ok? ==> Dscr(p.model, p.grossRent, occupancy, ScenarioRate(p.baseRate, shockBp), p.debt) == Ok(r.value.dscr)
    ensures r.Ok? ==> r.value.cashflow + Interest(ScenarioRate(p.baseRate, shockBp), p.debt)
                      == Noi(p.model, p.grossRent, occupancy)
  {
    var rate := ScenarioRate(p.baseRate, shockBp);
    var cf := NetCashflow(p.model, p.grossRent, occupancy, rate, p.debt);
    var ds :- Dscr(p.model, p.grossRent, occupancy, rate, p.debt);
    Ok(Outcome(cf, ds))
  }

  /** A scenario fails when it breaches either threshold. */
  predicate Fails(o: Outcome, t: Thresholds)
  {
    o.dscr < t.minDscr || o.cashflow < t.minCashflow
  }

  /** A scenario point whose outcome is defined and fails. */
  predicate PointFails(p: Position, occupancy: real, shockBp: real, t: Thresholds)
  {
    EvaluatePoint(p, occupancy, shockBp).Ok? && Fails(EvaluatePoint(p, occupancy, shockBp).value, t)
  }

  /** The failure test of one scenario point, in the model's own terms: a
      defined point fails when its DSCR or its net cashflow breaches the
      threshold; with a positive minimum DSCR that is NOI below
      minDscr * interest, or below interest + minCashflow. */
  lemma PointFailsIff(p: Position, occupancy: real, shockBp: real, t: Thresholds)
    ensures PointFails(p, occupancy, shockBp, t) <==>
              && Serviceable(p, shockBp)
              && (|| Dscr(p.model, p.grossRent, occupancy, ScenarioRate(p.baseRate, shockBp), p.debt).value < t.minDscr
                  || NetCashflow(p.model, p.grossRent, occupancy, ScenarioRate(p.baseRate, shockBp), p.debt) < t.minCashflow)
    ensures t.minDscr > 0.0 ==>
              (PointFails(p, occupancy, shockBp, t) <==>
                 && Serviceable(p, shockBp)
                 && (|| Noi(p.model, p.grossRent, occupancy) < t.minDscr * Interest(ScenarioRate(p.baseRate, shockBp), p.debt)
                     || Noi(p.model, p.grossRent, occupancy) < Interest(ScenarioRate(p.baseRate, shockBp), p.debt) + t.minCashflow))
  {
    var rate := ScenarioRate(p.baseRate, shockBp);
    if Serviceable(p, shockBp) && t.minDscr > 0.0 {
      DscrMeetsMinimumIff(p.model, p.grossRent, occupancy, rate, p.debt, t.minDscr);
    }
  }

  // ---------------------------------------------------------------------
  // Failure probability

  predicate WellShaped(d: Marginal)
  {
    |d.values| == |d.weights|
  }

  /** Failed joint mass of pair (i, j): the product of the two marginal
      weights when the pair fails, nothing otherwise. */
  function PairFailedMass(p: Position, occ: Marginal, shock: Marginal, t: Thresholds, i: nat, j: nat): real
    requires WellShaped(occ) && WellShaped(shock)
    requires i < |occ.values| && j < |shock.values|
  {
    if PointFails(p, occ.values[i], shock.values[j], t) then occ.weights[i] * shock.weights[j] else 0.0
  }

  /** Failed joint mass of the pairs sharing occupancy value i, by shock. */
  function RowFailedMass(p: Position, occ: Marginal, shock: Marginal, t: Thresholds, i: nat): (row: seq<real>)
    requires WellShaped(occ) && WellShaped(shock)
    requires i < |occ.values|
    ensures |row| == |shock.values|
    ensures forall j :: 0 <= j < |shock.values| ==> row[j] == PairFailedMass(p, occ, shock, t, i, j)
  {
    seq(|shock.values|, j requires 0 <= j < |shock.values| => PairFailedMass(p, occ, shock, t, i, j))
  }

  /** A serviceable pair's entry in its row: the joint weight when its
      outcome fails, nothing otherwise. */
  lemma RowEntry(p: Position, occ: Marginal, shock: Marginal, t: Thresholds, i: nat, j: nat)
    requires WellShaped(occ) && WellShaped(shock)
    requires i < |occ.values| && j < |shock.values|
    requires Serviceable(p, shock.values[j])
    ensures RowFailedMass(p, occ, shock, t, i)[j]
            == if Fails(EvaluatePoint(p, occ.values[i], shock.values[j]).value, t)
               then occ.weights[i] * shock.weights[j] else 0.0
  {
  }

  /** Failed mass of each occupancy row: one entry per occupancy value. */
  function FailedMassByOccupancy(p: Position, occ: Marginal, shock: Marginal, t: Thresholds): (rows: seq<real>)
    requires WellShaped(occ) && WellShaped(shock)
    ensures |rows| == |occ.values|
    ensures forall i :: 0 <= i < |occ.values| ==> rows[i] == Sum(RowFailedMass(p, occ, shock, t, i))
  {
    seq(|occ.values|, i requires 0 <= i < |occ.values| => Sum(RowFailedMass(p, occ, shock, t, i)))
  }

  /** Over probability vectors, a row carries between nothing and the whole
      marginal weight of its occupancy value. */
  lemma RowFailedMassBounds(p: Position, occ: Marginal, shock: Marginal, t: Thresholds, i: nat)
    requires IsDistribution(occ) && IsDistribution(shock)
    requires i < |occ.values|
    ensures 0.0 <= Sum(RowFailedMass(p, occ, shock, t, i)) <= occ.weights[i]
  {
    var row := RowFailedMass(p, occ, shock, t, i);
    var full := Scale(occ.weights[i], shock.weights);
    forall j | 0 <= j < |row|
      ensures 0.0 <= row[j] <= full[j]
    {
      assert occ.weights[i] >= 0.0 && shock.weights[j] >= 0.0;
    }
    SumNonNegative(row);
    SumMonotone(row, full);
    SumScale(occ.weights[i], shock.weights);
  }

  /** Failure probability: validate and re-normalise both marginals (shocks
      first), reject an unserviceable shock, then sum the joint mass of the
      failing pairs. */
  function FailureProbability(p: Position, shocks: Marginal, occs: Marginal, t: Thresholds): (r: Result<real>)
    ensures NormaliseWeights(shocks).Err? ==> r == Err(NormaliseWeights(shocks).error)
    ensures NormaliseWeights(shocks).Ok? && NormaliseWeights(occs).Err? ==> r == Err(NormaliseWeights(occs).error)
    ensures NormaliseWeights(shocks).Ok? && NormaliseWeights(occs).Ok? ==>
              (r.Err? <==> !AllServiceable(p, shocks.values))
              && (r.Err? ==> r.error == InterestNotPositive)
    ensures r.Ok? ==> 0.0 <= r.value <= 1.0
    ensures r.Ok? ==> |occs.values| > 0 && |shocks.values| > 0 && AllServiceable(p, shocks.values)
  {
    var sn :- NormaliseWeights(shocks);
    var on :- NormaliseWeights(occs);
    if !AllServiceable(p, sn.values) then Err(InterestNotPositive)
    else
      var rows := FailedMassByOccupancy(p, on, sn, t);
      assert 0.0 <= Sum(rows) <= 1.0 by {
        forall i | 0 <= i < |rows|
          ensures 0.0 <= rows[i] <= on.weights[i]
        {
          RowFailedMassBounds(p, on, sn, t, i);
        }
        SumNonNegative(rows);
        SumMonotone(rows, on.weights);
      }
      Ok(Sum(rows))
  }

  /** The inner loop of the enumeration: adds to acc the joint weight of
      every failing pair sharing occupancy value i, stopping at the first
      unserviceable shock. */
  method AccumulateRow(p: Position, occ: Marginal, shock: Marginal, t: Thresholds, i: nat, acc: real)
    returns (r: Result<real>)
    requires WellShaped(occ) && WellShaped(shock)
    requires i < |occ.values|
    ensures r.Err? <==> !AllServiceable(p, shock.values)
    ensures r.Err? ==> r.error == InterestNotPositive
    ensures r.Ok? ==> r.value == acc + Sum(RowFailedMass(p, occ, shock, t, i))
  {
    ghost var row := RowFailedMass(p, occ, shock, t, i);
    var failW := acc;
    var j := 0;
    while j < |shock.values|
      invariant 0 <= j <= |shock.values|
      invariant forall j' :: 0 <= j' < j ==> Serviceable(p, shock.values[j'])
      invariant failW == acc + Sum(row[..j])
    {
      var outcome := EvaluatePoint(p, occ.values[i], shock.values[j]);
      if outcome.Err? {
        return Err(outcome.error);
      }
      SumPrefixStep(row, j);
      RowEntry(p, occ, shock, t, i, j);
      if Fails(outcome.value, t) {
        failW := failW + occ.weights[i] * shock.weights[j];
      }
      j := j + 1;
    }
    assert row[..j] == row;
    return Ok(failW);
  }

  /** The enumeration the source performs: nested loops over occupancy then
      shock, adding each failing pair's joint weight. */
  method FailureProbabilityOverDistribution(p: Position, shocks: Marginal, occs: Marginal, t: Thresholds)
    returns (r: Result<real>)
    ensures r == FailureProbability(p, shocks, occs, t)
  {
    var sn := NormaliseWeights(shocks);
    if sn.Err? {
      return Err(sn.error);
    }
    var on := NormaliseWeights(occs);
    if on.Err? {
      return Err(on.error);
    }
    var shock := sn.value;
    var occ := on.value;
    ghost var rows := FailedMassByOccupancy(p, occ, shock, t);
    var failW := 0.0;
    var i := 0;
    while i < |occ.values|
      invariant 0 <= i <= |occ.values|
      invariant i > 0 ==> AllServiceable(p, shock.values)
      invariant failW == Sum(rows[..i])
    {
      var next := AccumulateRow(p, occ, shock, t, i, failW);
      if next.Err? {
        return next;
      }
      SumPrefixStep(rows, i);
      failW := next.value;
      i := i + 1;
    }
    assert rows[..i] == rows;
    return Ok(failW);
  }

  /** A defined failure probability is the sum of the row masses over the
      normalised marginals. */
  lemma FailureProbabilityValue(p: Position, shocks: Marginal, occs: Marginal, t: Thresholds)
    requires FailureProbability(p, shocks, occs, t).Ok?
    ensures NormaliseWeights(shocks).Ok? && NormaliseWeights(occs).Ok?
    ensures FailureProbability(p, shocks, occs, t).value
            == Sum(FailedMassByOccupancy(p, NormaliseWeights(occs).value, NormaliseWeights(shocks).value, t))
  {
  }

  /** Failure probability in terms of the raw weights: pair (i, j) carries
      occW[i] / sum(occW) * shockW[j] / sum(shockW) when it fails and nothing
      otherwise, and the probability sums every pair of every row. */
  lemma FailureProbabilityIsFailedJointMass(p: Position, shocks: Marginal, occs: Marginal, t: Thresholds, i: nat, j: nat)
    requires FailureProbability(p, shocks, occs, t).Ok?
    requires i < |occs.values| && j < |shocks.values|
    ensures NormaliseWeights(shocks).Ok? && NormaliseWeights(occs).Ok?
    ensures FailureProbability(p, shocks, occs, t).value
            == Sum(FailedMassByOccupancy(p, NormaliseWeights(occs).value, NormaliseWeights(shocks).value, t))
    ensures RowFailedMass(p, NormaliseWeights(occs).value, NormaliseWeights(shocks).value, t, i)[j]
            == if PointFails(p, occs.values[i], shocks.values[j], t)
               then (occs.weights[i] / Sum(occs.weights)) * (shocks.weights[j] / Sum(shocks.weights))
               else 0.0
  {
    FailureProbabilityValue(p, shocks, occs, t);
    PairMassOverRawWeights(p, shocks, occs, t, i, j);
  }

  /** The mass of one pair, given its two marginal weights. */
  lemma PairMassWithWeights(p: Position, occ: Marginal, shock: Marginal, t: Thresholds, i: nat, j: nat, a: real, b: real)
    requires WellShaped(occ) && WellShaped(shock)
    requires i < |occ.values| && j < |shock.values|
    requires occ.weights[i] == a && shock.weights[j] == b
    ensures RowFailedMass(p, occ, shock, t, i)[j]
            == if PointFails(p, occ.values[i], shock.values[j], t) then a * b else 0.0
  {
  }

  /** The mass of one pair after normalisation, in terms of the raw weights. */
  lemma PairMassOverRawWeights(p: Position, shocks: Marginal, occs: Marginal, t: Thresholds, i: nat, j: nat)
    requires Normalisable(shocks) && Normalisable(occs)
    requires i < |occs.values| && j < |shocks.values|
    ensures NormaliseWeights(shocks).Ok? && NormaliseWeights(occs).Ok?
    ensures RowFailedMass(p, NormaliseWeights(occs).value, NormaliseWeights(shocks).value, t, i)[j]
            == if PointFails(p, occs.values[i], shocks.values[j], t)
               then (occs.weights[i] / Sum(occs.weights)) * (shocks.weights[j] / Sum(shocks.weights))
               else 0.0
  {
    var on := NormaliseWeights(occs).value;
    var sn := NormaliseWeights(shocks).value;
    PairMassWithWeights(p, on, sn, t, i, j, occs.weights[i] / Sum(occs.weights), shocks.weights[j] / Sum(shocks.weights));
  }

  /** No failing pair: the failure probability is exactly 0. */
  lemma NoFailureMeansZero(p: Position, shocks: Marginal, occs: Marginal, t: Thresholds)
    requires FailureProbability(p, shocks, occs, t).Ok?
    requires forall i, j :: 0 <= i < |occs.values| && 0 <= j < |shocks.values| ==>
               !PointFails(p, occs.values[i], shocks.values[j], t)
    ensures FailureProbability(p, shocks, occs, t).value == 0.0
  {
    var on := NormaliseWeights(occs).value;
    var sn := NormaliseWeights(shocks).value;
    var rows := FailedMassByOccupancy(p, on, sn, t);
    forall i | 0 <= i < |rows|
      ensures rows[i] == 0.0
    {
      SumOfZeros(RowFailedMass(p, on, sn, t, i));
    }
    SumOfZeros(rows);
  }

  /** A pair that fails whenever it carries weight contributes its whole
      joint weight. */
  lemma FullyFailingEntry(p: Position, occ: Marginal, shock: Marginal, t: Thresholds, i: nat, j: nat)
    requires WellShaped(occ) && WellShaped(shock)
    requires i < |occ.values| && j < |shock.values|
    requires occ.weights[i] >= 0.0 && shock.weights[j] >= 0.0
    requires occ.weights[i] > 0.0 && shock.weights[j] > 0.0 ==> PointFails(p, occ.values[i], shock.values[j], t)
    ensures RowFailedMass(p, occ, shock, t, i)[j] == occ.weights[i] * shock.weights[j]
  {
    if occ.weights[i] == 0.0 || shock.weights[j] == 0.0 {
      assert occ.weights[i] * shock.weights[j] == 0.0;
    }
  }

  /** A row all of whose weighted pairs fail carries its whole marginal weight. */
  lemma RowFullyFailing(p: Position, occ: Marginal, shock: Marginal, t: Thresholds, i: nat)
    requires IsDistribution(occ) && IsDistribution(shock)
    requires i < |occ.values|
    requires forall j :: 0 <= j < |shock.values| ==>
               (occ.weights[i] > 0.0 && shock.weights[j] > 0.0 ==> PointFails(p, occ.values[i], shock.values[j], t))
    ensures Sum(RowFailedMass(p, occ, shock, t, i)) == occ.weights[i]
  {
    var row := RowFailedMass(p, occ, shock, t, i);
    var full := Scale(occ.weights[i], shock.weights);
    forall j | 0 <= j < |row|
      ensures row[j] == full[j]
    {
      FullyFailingEntry(p, occ, shock, t, i, j);
    }
    assert row == full;
    SumScale(occ.weights[i], shock.weights);
    assert Sum(shock.weights) == 1.0;
  }

  /** Every pair of positive joint weight fails: the failure probability is
      exactly 1. */
  lemma CertainFailureMeansOne(p: Position, shocks: Marginal, occs: Marginal, t: Thresholds)
    requires FailureProbability(p, shocks, occs, t).Ok?
    requires forall i, j :: 0 <= i < |occs.values| && 0 <= j < |shocks.values| ==>
               (occs.weights[i] > 0.0 && shocks.weights[j] > 0.0 ==> PointFails(p, occs.values[i], shocks.values[j], t))
    ensures FailureProbability(p, shocks, occs, t).value == 1.0
  {
    var on := NormaliseWeights(occs).value;
    var sn := NormaliseWeights(shocks).value;
    var rows := FailedMassByOccupancy(p, on, sn, t);
    forall i | 0 <= i < |rows|
      ensures rows[i] == on.weights[i]
    {
      forall j | 0 <= j < |sn.values| && on.weights[i] > 0.0 && sn.weights[j] > 0.0
        ensures PointFails(p, on.values[i], sn.values[j], t)
      {
        PositiveStaysPositive(occs, i);
        PositiveStaysPositive(shocks, j);
      }
      RowFullyFailing(p, on, sn, t, i);
    }
    assert rows == on.weights;
  }

  /** Re-normalisation keeps exactly the same weights positive. */
  lemma PositiveStaysPositive(d: Marginal, k: nat)
    requires NormaliseWeights(d).Ok?
    requires k < |d.weights|
    ensures NormaliseWeights(d).value.weights[k] > 0.0 <==> d.weights[k] > 0.0
  {
    QuotientSign(d.weights[k], Sum(d.weights));
  }

  // ---------------------------------------------------------------------
  // Worst case over the support

  /** Running minimum, left to right, as the source folds min over pairs. */
  function Min(s: seq<real>): (r: real)
    requires |s| > 0
    ensures forall k :: 0 <= k < |s| ==> r <= s[k]
    ensures exists k :: 0 <= k < |s| && s[k] == r
  {
    if |s| == 1 then s[0]
    else
      var rest := Min(s[..|s| - 1]);
      if s[|s| - 1] < rest then s[|s| - 1] else rest
  }

  /** Smallest entry of a matrix: the minimum of the row minima. */
  function GridMin(m: seq<seq<real>>): (r: real)
    requires |m| > 0
    requires forall i :: 0 <= i < |m| ==> |m[i]| > 0
    ensures forall i, j :: 0 <= i < |m| && 0 <= j < |m[i]| ==> r <= m[i][j]
    ensures exists i, j :: 0 <= i < |m| && 0 <= j < |m[i]| && m[i][j] == r
  {
    var mins := seq(|m|, i requires 0 <= i < |m| => Min(m[i]));
    var r := Min(mins);
    assert forall i, j :: 0 <= i < |m| && 0 <= j < |m[i]| ==> r <= m[i][j] by {
      forall i, j | 0 <= i < |m| && 0 <= j < |m[i]|
        ensures r <= m[i][j]
      {
        assert r <= mins[i];
      }
    }
    assert exists i, j :: 0 <= i < |m| && 0 <= j < |m[i]| && m[i][j] == r by {
      var i :| 0 <= i < |mins| && mins[i] == r;
      var j :| 0 <= j < |m[i]| && m[i][j] == mins[i];
    }
    r
  }

  /** Net cashflow of every support pair: one row per occupancy value, one
      entry per shock. */
  function CashflowGrid(p: Position, occValues: seq<real>, shockValues: seq<real>): (g: seq<seq<real>>)
    requires AllServiceable(p, shockValues)
    ensures |g| == |occValues|
    ensures forall i :: 0 <= i < |occValues| ==> |g[i]| == |shockValues|
    ensures forall i, j :: 0 <= i < |occValues| && 0 <= j < |shockValues| ==>
              g[i][j] == EvaluatePoint(p, occValues[i], shockValues[j]).value.cashflow
  {
    seq(|occValues|, i requires 0 <= i < |occValues| =>
      seq(|shockValues|, j requires 0 <= j < |shockValues| => EvaluatePoint(p, occValues[i], shockValues[j]).value.cashflow))
  }

  /** DSCR of every support pair, laid out as CashflowGrid. */
  function DscrGrid(p: Position, occValues: seq<real>, shockValues: seq<real>): (g: seq<seq<real>>)
    requires AllServiceable(p, shockValues)
    ensures |g| == |occValues|
    ensures forall i :: 0 <= i < |occValues| ==> |g[i]| == |shockValues|
    ensures forall i, j :: 0 <= i < |occValues| && 0 <= j < |shockValues| ==>
              g[i][j] == EvaluatePoint(p, occValues[i], shockValues[j]).value.dscr
  {
    seq(|occValues|, i requires 0 <= i < |occValues| =>
      seq(|shockValues|, j requires 0 <= j < |shockValues| => EvaluatePoint(p, occValues[i], shockValues[j]).value.dscr))
  }

  /** Unweighted worst cashflow and worst DSCR over the support: each is a
      lower bound for every pair and attained by some pair. */
  function WorstCase(p: Position, occValues: seq<real>, shockValues: seq<real>): (w: Outcome)
    requires |occValues| > 0 && |shockValues| > 0
    requires AllServiceable(p, shockValues)
    ensures forall i, j :: 0 <= i < |occValues| && 0 <= j < |shockValues| ==>
              w.cashflow <= EvaluatePoint(p, occValues[i], shockValues[j]).value.cashflow
              && w.dscr <= EvaluatePoint(p, occValues[i], shockValues[j]).value.dscr
    ensures exists i, j :: 0 <= i < |occValues| && 0 <= j < |shockValues|
              && w.cashflow == EvaluatePoint(p, occValues[i], shockValues[j]).value.cashflow
    ensures exists i, j :: 0 <= i < |occValues| && 0 <= j < |shockValues|
              && w.dscr == EvaluatePoint(p, occValues[i], shockValues[j]).value.dscr
  {
    var cf := CashflowGrid(p, occValues, shockValues);
    var ds := DscrGrid(p, occValues, shockValues);
    Outcome(GridMin(cf), GridMin(ds))
  }
}

=== FILE: failures.dfy ===
/** Error kinds of the feasibility engine and the failure-compatible Result
    type used for every operation that can raise a ValueError. */
module Failures {

  /** One constructor per distinct condition the engine rejects. */
  datatype Error =
    | InterestNotPositive     // DSCR asked for with rate * debt <= 0
    | StepNotPositive         // LTV sweep step <= 0
    | GrossYieldNotPositive   // explicit gross yield <= 0
    | PriceOrRentNotPositive  // purchase price or annual rent <= 0
    | PriceOrRentNotNumeric   // purchase price or annual rent present but null
    | PresetIncomplete        // neither a gross yield nor a price/rent pair
    | LtvOutOfRange           // debt normalisation with LTV outside (0, 1)
    | LtvNotPositive          // analytic solver with LTV <= 0
    | MinDscrNotPositive      // analytic solver with minimum DSCR <= 0
    | LengthMismatch          // distribution values and weights differ in length
    | NegativeWeight          // a distribution weight below zero
    | WeightSumNotPositive    // distribution weights summing to zero or less

  /** Either a computed value or the error that aborts the computation. */
  datatype Result<+T> = Ok(value: T) | Err(error: Error) {

    predicate IsFailure() {
      Err?
    }

    function PropagateFailure<U>(): Result<U>
      requires Err?
    {
      Err(error)
    }

    function Extract(): T
      requires Ok?
    {
      value
    }
  }

  /** Folds a sequence of already computed results: all their values when
      every one is Ok, otherwise the first error in sequence order. */
  function Collect<T>(rs: seq<Result<T>>): (r: Result<seq<T>>)
    ensures r.Ok? <==> forall i :: 0 <= i < |rs| ==> rs[i].Ok?
    ensures r.Ok? ==> |r.value| == |rs| && forall i :: 0 <= i < |rs| ==> r.value[i] == rs[i].value
    ensures r.Err? ==> exists i :: 0 <= i < |rs| && rs[i] == Err(r.error)
                        && forall k :: 0 <= k < i ==> rs[k].Ok?
    decreases |rs|
  {
    if |rs| == 0 then Ok([])
    else
      var first :- rs[0];
      var rest :- Collect(rs[1..]);
      assert forall i :: 1 <= i < |rs| ==> rs[i] == rs[1..][i - 1];
      Ok([first] + rest)
  }
}

=== FILE: grid.dfy ===
/** The LTV sweep grid: an arithmetic progression whose stop bound is
    inclusive up to a small relative tolerance. */
module Grid {
  import opened Failures

  /** The 1e-12 slack added before flooring, so that a stop value reached
      only approximately still yields its point. */
  const Tolerance: real := 0.000000000001

  /** Number of grid points: floor((stop - start) / step + tolerance) + 1,
      with a negative count giving no points (an empty range). */
  function PointCount(start: real, stop: real, step: real): nat
    requires step > 0.0
  {
    var n := ((stop - start) / step + Tolerance).Floor + 1;
    if n < 0 then 0 else n
  }

  /** Point i of the progression start, start + step, start + 2 step, ... */
  function GridPoint(start: real, step: real, i: nat): real
  {
    start + (i as real) * step
  }

  /** The ordered LTV values start, start + step, ... up to the tolerant
      inclusive stop. Rounding to 10 decimal places is not modelled. */
  function LtvGrid(start: real, stop: real, step: real): (r: Result<seq<real>>)
    ensures r.Err? <==> step <= 0.0
    ensures r.Err? ==> r.error == StepNotPositive
    ensures r.Ok? ==> |r.value| == PointCount(start, stop, step)
    ensures r.Ok? ==> forall i :: 0 <= i < |r.value| ==> r.value[i] == start + (i as real) * step
    ensures r.Ok? ==> forall i, j :: 0 <= i < j < |r.value| ==> r.value[i] < r.value[j]
  {
    if step <= 0.0 then Err(StepNotPositive)
    else
      var grid := seq(PointCount(start, stop, step), i => start + (i as real) * step);
      assert forall i, j :: 0 <= i < j < |grid| ==> grid[i] < grid[j] by {
        forall i, j | 0 <= i < j < |grid|
          ensures grid[i] < grid[j]
        {
          ProgressionAscends(start, step, i, j);
        }
      }
      Ok(grid)
  }

  lemma ProgressionAscends(start: real, step: real, i: nat, j: nat)
    requires step > 0.0 && i < j
    ensures start + (i as real) * step < start + (j as real) * step
  {
    assert (j as real) * step - (i as real) * step == ((j - i) as real) * step;
    assert ((j - i) as real) * step > 0.0;
  }

  /** Independent reading of the grid: the i-th progression point belongs to
      the grid exactly when it does not overshoot stop by more than
      tolerance * step. */
  lemma GridHoldsTolerantPoints(start: real, stop: real, step: real, i: nat)
    requires step > 0.0
    ensures LtvGrid(start, stop, step).Ok?
    ensures i < |LtvGrid(start, stop, step).value|
            <==> start + (i as real) * step <= stop + Tolerance * step
  {
    var x := (stop - start) / step + Tolerance;
    var fl := x.Floor;
    assert fl as real <= x < fl as real + 1.0;
    var n := |LtvGrid(start, stop, step).value|;
    assert i < n <==> i <= fl;
    assert i <= fl <==> (i as real) <= x by {
      if i <= fl {
        assert (i as real) <= fl as real;
      } else {
        assert (i as real) >= fl as real + 1.0;
      }
    }
    assert x * step == (stop - start) + Tolerance * step;
    assert (i as real) <= x <==> (i as real) * step <= x * step by {
      if (i as real) <= x {
        assert x * step - (i as real) * step == (x - i as real) * step;
      } else {
        assert (i as real) * step - x * step == (i as real - x) * step;
      }
    }
  }

  /** A sweep 0.50 .. 0.80 in steps of 0.05 has seven points,
      the last one being the stop value itself. */
  lemma SevenPointSweep()
    ensures LtvGrid(0.5, 0.8, 0.05) == Ok([0.5, 0.55, 0.6, 0.65, 0.7, 0.75, 0.8])
  {
    var x := (0.8 - 0.5) / 0.05 + Tolerance;
    assert 6.0 <= x < 7.0;
    assert x.Floor == 6;
    assert PointCount(0.5, 0.8, 0.05) == 7;
    var g := LtvGrid(0.5, 0.8, 0.05).value;
    assert g[0] == 0.5 && g[1] == 0.55 && g[2] == 0.6 && g[3] == 0.65;
    assert g[4] == 0.7 && g[5] == 0.75 && g[6] == 0.8;
    assert |g| == 7;
    assert g == [0.5, 0.55, 0.6, 0.65, 0.7, 0.75, 0.8];
  }
}

=== FILE: resolve.dfy ===
/** Preset resolution and unit-price normalisation: the gross yield a preset
    implies, and rent and debt expressed per unit of purchase price. */
module Resolve {
  import opened Failures

  /** A preset entry: the key may be missing, present with a null value, or
      present with a number. */
  datatype Field = Absent | Null | Number(x: real)

  /** The resolved preset dictionary, reduced to the three keys the yield
      derivation reads. */
  datatype Preset = Preset(grossYield: Field, purchasePriceGbp: Field, annualRentGbp: Field)

  /** The gross yield a preset implies: a present, non-null gross_yield wins
      outright; otherwise annual rent over purchase price. */
  function ImpliedGrossYield(p: Preset): (r: Result<real>)
    ensures r.Ok? ==> r.value > 0.0
    // an explicit yield takes priority and is accepted only when positive
    ensures p.grossYield.Number? ==>
              (r.Ok? <==> p.grossYield.x > 0.0)
              && (r.Ok? ==> r.value == p.grossYield.x)
              && (r.Err? ==> r.error == GrossYieldNotPositive)
    // otherwise both keys must be present ...
    ensures !p.grossYield.Number? && (p.purchasePriceGbp.Absent? || p.annualRentGbp.Absent?) ==>
              r == Err(PresetIncomplete)
    // ... numeric ...
    ensures !p.grossYield.Number? && !p.purchasePriceGbp.Absent? && !p.annualRentGbp.Absent?
            && (p.purchasePriceGbp.Null? || p.annualRentGbp.Null?) ==>
              r == Err(PriceOrRentNotNumeric)
    // ... and positive, and the yield is the rent per unit of price
    ensures !p.grossYield.Number? && p.purchasePriceGbp.Number? && p.annualRentGbp.Number? ==>
              (r.Ok? <==> p.purchasePriceGbp.x > 0.0 && p.annualRentGbp.x > 0.0)
              && (r.Ok? ==> r.value * p.purchasePriceGbp.x == p.annualRentGbp.x)
              && (r.Err? ==> r.error == PriceOrRentNotPositive)
  {
    if p.grossYield.Number? then
      var gy := p.grossYield.x;
      if gy <= 0.0 then Err(GrossYieldNotPositive) else Ok(gy)
    else if !p.purchasePriceGbp.Absent? && !p.annualRentGbp.Absent? then
      if p.purchasePriceGbp.Null? || p.annualRentGbp.Null? then Err(PriceOrRentNotNumeric)
      else
        var price := p.purchasePriceGbp.x;
        var rent := p.annualRentGbp.x;
        if price <= 0.0 || rent <= 0.0 then Err(PriceOrRentNotPositive)
        else Ok(rent / price)
    else
      Err(PresetIncomplete)
  }

  /** An explicit 6% yield, and a 500000 price with 30000 rent, both give
      a 6% gross yield. */
  lemma SixPercentPresets()
    ensures ImpliedGrossYield(Preset(Number(0.06), Absent, Absent)) == Ok(0.06)
    ensures ImpliedGrossYield(Preset(Absent, Number(500000.0), Number(30000.0))) == Ok(0.06)
  {
  }

  /** Annual rent at a given price: the yield is recovered per unit price. */
  function NormalisedRentFromYield(grossYield: real, price: real): (r: real)
    ensures price != 0.0 ==> r / price == grossYield
    ensures grossYield > 0.0 && price > 0.0 ==> r > 0.0
  {
    grossYield * price
  }

  /** Debt at a given price; the LTV must be a proper fraction. */
  function NormalisedDebtFromLtv(ltv: real, price: real): (r: Result<real>)
    ensures r.Err? <==> ltv <= 0.0 || ltv >= 1.0
    ensures r.Err? ==> r.error == LtvOutOfRange
    ensures r.Ok? && price != 0.0 ==> r.value / price == ltv
    ensures r.Ok? && price > 0.0 ==> 0.0 < r.value < price
  {
    if ltv <= 0.0 || ltv >= 1.0 then Err(LtvOutOfRange)
    else
      assert price > 0.0 ==> price - ltv * price == (1.0 - ltv) * price > 0.0;
      Ok(ltv * price)
  }

  /** At the unit price the sweep uses, rent is the yield and debt is the LTV. */
  lemma UnitPriceNormalisation(grossYield: real, ltv: real)
    requires 0.0 < ltv < 1.0
    ensures NormalisedRentFromYield(grossYield, 1.0) == grossYield
    ensures NormalisedDebtFromLtv(ltv, 1.0) == Ok(ltv)
  {
  }
}

=== FILE: solver.dfy ===
/** The analytical solver: the closed-form inverse of the DSCR constraint,
    and its conversion into a basis-point shock over the base rate. */
module Solver {
  import opened Failures
  import opened Cashflow

  const BasisPointsPerUnit: real := 10000.0

  /** The interest rate reached when the base rate is shocked by shockBp
      basis points. */
  function ScenarioRate(baseRate: real, shockBp: real): (r: real)
    ensures (r - baseRate) * BasisPointsPerUnit == shockBp
    ensures r >= baseRate <==> shockBp >= 0.0
  {
    baseRate + shockBp / BasisPointsPerUnit
  }

  /** r_max = (1 - c) * R * occ / (minDscr * D) with D = ltv at unit price:
      the largest rate at which the DSCR still reaches minDscr. */
  function MaxRateForDscr(costRatio: real, grossYield: real, ltv: real, occupancy: real, minDscr: real): (r: Result<real>)
    ensures r.Err? <==> ltv <= 0.0 || minDscr <= 0.0
    ensures ltv <= 0.0 ==> r == Err(LtvNotPositive)
    ensures ltv > 0.0 && minDscr <= 0.0 ==> r == Err(MinDscrNotPositive)
    ensures r.Ok? ==> r.value * (minDscr * ltv) == Noi(CashflowModel(costRatio), grossYield, occupancy)
  {
    if ltv <= 0.0 then Err(LtvNotPositive)
    else if minDscr <= 0.0 then Err(MinDscrNotPositive)
    else
      assert minDscr * ltv > 0.0;
      Ok((1.0 - costRatio) * grossYield * occupancy / (minDscr * ltv))
  }

  /** The shock, in basis points, that moves the base rate to maxRate; it is
      negative (never clamped) when the base rate already exceeds maxRate. */
  function BreakEvenShockBp(baseRate: real, maxRate: real): (r: real)
    ensures r < 0.0 <==> maxRate < baseRate
    ensures ScenarioRate(baseRate, r) == maxRate
  {
    BasisPointsPerUnit * (maxRate - baseRate)
  }

  /** The solver inverts the DSCR exactly: at any positive rate the DSCR
      reaches minDscr if and only if the rate does not exceed r_max (the
      zero floor for non-positive NOI included). */
  lemma RateWithinMaxIffDscrMet(costRatio: real, grossYield: real, ltv: real, occupancy: real, minDscr: real, rate: real)
    requires ltv > 0.0 && minDscr > 0.0 && rate > 0.0
    ensures Dscr(CashflowModel(costRatio), grossYield, occupancy, rate, ltv).Ok?
    ensures Dscr(CashflowModel(costRatio), grossYield, occupancy, rate, ltv).value >= minDscr
            <==> rate <= MaxRateForDscr(costRatio, grossYield, ltv, occupancy, minDscr).value
  {
    var m := CashflowModel(costRatio);
    var noi := Noi(m, grossYield, occupancy);
    var rMax := MaxRateForDscr(costRatio, grossYield, ltv, occupancy, minDscr).value;
    var k := minDscr * ltv;
    assert k > 0.0;
    DscrMeetsMinimumIff(m, grossYield, occupancy, rate, ltv, minDscr);
    assert minDscr * Interest(rate, ltv) == rate * k;
    assert rMax * k == noi;
    if rate <= rMax {
      assert rate * k <= rMax * k by {
        assert rMax * k - rate * k == (rMax - rate) * k;
      }
    } else {
      assert rate * k > rMax * k by {
        assert rate * k - rMax * k == (rate - rMax) * k;
      }
    }
  }

  /** With positive NOI the DSCR at r_max is exactly minDscr. */
  lemma DscrAtMaxRate(costRatio: real, grossYield: real, ltv: real, occupancy: real, minDscr: real)
    requires ltv > 0.0 && minDscr > 0.0
    requires Noi(CashflowModel(costRatio), grossYield, occupancy) > 0.0
    ensures MaxRateForDscr(costRatio, grossYield, ltv, occupancy, minDscr).value > 0.0
    ensures Dscr(CashflowModel(costRatio), grossYield, occupancy,
                 MaxRateForDscr(costRatio, grossYield, ltv, occupancy, minDscr).value, ltv) == Ok(minDscr)
  {
    var m := CashflowModel(costRatio);
    var noi := Noi(m, grossYield, occupancy);
    var rMax := MaxRateForDscr(costRatio, grossYield, ltv, occupancy, minDscr).value;
    var k := minDscr * ltv;
    assert k > 0.0;
    assert rMax * k == noi;
    assert rMax > 0.0;
    var intr := Interest(rMax, ltv);
    assert intr > 0.0;
    var d := Dscr(m, grossYield, occupancy, rMax, ltv).value;
    assert d * intr == noi;
    assert minDscr * intr == noi;
    assert d == noi / intr;
    assert minDscr == noi / intr;
  }

  /** In shock terms: a shocked rate meets the DSCR minimum if and only if the
      shock is at most the break-even shock. */
  lemma ShockWithinBreakEvenIffDscrMet(costRatio: real, grossYield: real, ltv: real, occupancy: real,
                                        minDscr: real, baseRate: real, shockBp: real)
    requires ltv > 0.0 && minDscr > 0.0
    requires ScenarioRate(baseRate, shockBp) > 0.0
    ensures Dscr(CashflowModel(costRatio), grossYield, occupancy, ScenarioRate(baseRate, shockBp), ltv).Ok?
    ensures Dscr(CashflowModel(costRatio), grossYield, occupancy, ScenarioRate(baseRate, shockBp), ltv).value >= minDscr
            <==> shockBp <= BreakEvenShockBp(baseRate, MaxRateForDscr(costRatio, grossYield, ltv, occupancy, minDscr).value)
  {
    var rMax := MaxRateForDscr(costRatio, grossYield, ltv, occupancy, minDscr).value;
    RateWithinMaxIffDscrMet(costRatio, grossYield, ltv, occupancy, minDscr, ScenarioRate(baseRate, shockBp));
    var b := BreakEvenShockBp(baseRate, rMax);
    assert ScenarioRate(baseRate, shockBp) <= rMax <==> shockBp <= b;
  }

  /** More leverage lowers the sustainable rate and the tolerable shock. */
  lemma MaxRateFallsWithLtv(costRatio: real, grossYield: real, occupancy: real, minDscr: real,
                            baseRate: real, ltv1: real, ltv2: real)
    requires 0.0 < ltv1 < ltv2 && minDscr > 0.0
    requires Noi(CashflowModel(costRatio), grossYield, occupancy) > 0.0
    ensures MaxRateForDscr(costRatio, grossYield, ltv2, occupancy, minDscr).value
            < MaxRateForDscr(costRatio, grossYield, ltv1, occupancy, minDscr).value
    ensures BreakEvenShockBp(baseRate, MaxRateForDscr(costRatio, grossYield, ltv2, occupancy, minDscr).value)
            < BreakEvenShockBp(baseRate, MaxRateForDscr(costRatio, grossYield, ltv1, occupancy, minDscr).value)
  {
    var noi := Noi(CashflowModel(costRatio), grossYield, occupancy);
    var r1 := MaxRateForDscr(costRatio, grossYield, ltv1, occupancy, minDscr).value;
    var r2 := MaxRateForDscr(costRatio, grossYield, ltv2, occupancy, minDscr).value;
    var k1 := minDscr * ltv1;
    var k2 := minDscr * ltv2;
    assert 0.0 < k1 < k2 by {
      assert k2 - k1 == minDscr * (ltv2 - ltv1);
    }
    assert r1 * k1 == noi && r2 * k2 == noi;
    assert r2 > 0.0;
    assert r2 * k1 < r2 * k2 by {
      assert r2 * k2 - r2 * k1 == r2 * (k2 - k1);
    }
    assert r1 * k1 - r2 * k1 > 0.0;
    assert (r1 - r2) * k1 == r1 * k1 - r2 * k1;
  }

  /** A worked case: c = 0.3, R = 0.07, LTV = 0.7, occupancy 0.9 and
      minimum DSCR 1 allow a 6.3% rate, 130 bp above a 5% base rate. */
  lemma WorkedSolve()
    ensures MaxRateForDscr(0.3, 0.07, 0.7, 0.9, 1.0) == Ok(0.063)
    ensures BreakEvenShockBp(0.05, 0.063) == 130.0
  {
  }
}

=== FILE: sweep.dfy ===
/** The sweep orchestrator: one result row per LTV of the grid, combining
    the deterministic stress check, the failure probability over the
    scenario distribution, the worst case on its support and the analytic
    break-even shock. */
module Sweep {
  import opened Failures
  import opened Cashflow
  import opened Grid
  import opened Resolve
  import opened Solver
  import opened Weights
  import opened Distribution

  /** Risk constraints: thresholds and the single deterministic stress scenario. */
  datatype RiskConstraints = RiskConstraints(
    minDscr: real,
    minCashflow: real,
    maxFailureProbability: real,
    stressOccupancy: real,
    stressShockBp: real)

  datatype SweepRange = SweepRange(start: real, stop: real, step: real)

  /** The resolved configuration the sweep consumes. */
  datatype Assumptions = Assumptions(
    operatingCostRatio: real,
    baseRate: real,
    preset: Preset,
    ltvSweep: SweepRange,
    constraints: RiskConstraints,
    shockBp: Marginal,
    occupancy: Marginal)

  /** One result row (pure copies of inputs are not carried). */
  datatype Row = Row(
    grossYield: real,
    ltv: real,
    stressRate: real,
    stressCashflow: real,
    stressDscr: real,
    worstCashflow: real,
    worstDscr: real,
    failureProbability: real,
    maxShockBp: real,
    passesStress: bool,
    passesProbability: bool,
    admissible: bool)

  /** The fixed part of every scenario at one LTV, at unit price. */
  function PositionAt(a: Assumptions, grossYield: real, ltv: real): Position
  {
    Position(CashflowModel(a.operatingCostRatio), NormalisedRentFromYield(grossYield, 1.0), ltv, a.baseRate)
  }

  function ThresholdsOf(a: Assumptions): Thresholds
  {
    Thresholds(a.constraints.minDscr, a.constraints.minCashflow)
  }

  /** The result row for one LTV. Errors surface in the order the row is
      built: LTV domain, stress interest, distribution, minimum DSCR. */
  function EvaluateRow(a: Assumptions, grossYield: real, ltv: real): (r: Result<Row>)
    ensures !(0.0 < ltv < 1.0) ==> r == Err(LtvOutOfRange)
    ensures r.Ok? ==> r.value.ltv == ltv && r.value.grossYield == grossYield
    ensures r.Ok? ==> (r.value.admissible <==> r.value.passesStress && r.value.passesProbability)
    ensures r.Ok? ==> (r.value.passesProbability <==> r.value.failureProbability <= a.constraints.maxFailureProbability)
    ensures r.Ok? ==> (r.value.passesStress <==>
                        r.value.stressCashflow >= a.constraints.minCashflow && r.value.stressDscr >= a.constraints.minDscr)
    ensures r.Ok? ==> 0.0 <= r.value.failureProbability <= 1.0
    // the analytic break-even shock agrees with the stress DSCR check
    ensures r.Ok? ==> (r.value.stressDscr >= a.constraints.minDscr <==> a.constraints.stressShockBp <= r.value.maxShockBp)
  {
    var c := a.constraints;
    var debt :- NormalisedDebtFromLtv(ltv, 1.0);
    var position := PositionAt(a, grossYield, ltv);
    assert position.debt == debt;
    var stressRate := ScenarioRate(a.baseRate, c.stressShockBp);
    var stressCf := NetCashflow(position.model, position.grossRent, c.stressOccupancy, stressRate, position.debt);
    var stressDscr :- Dscr(position.model, position.grossRent, c.stressOccupancy, stressRate, position.debt);
    var passesStress := stressCf >= c.minCashflow && stressDscr >= c.minDscr;
    var pFail :- FailureProbability(position, a.shockBp, a.occupancy, ThresholdsOf(a));
    var passesProb := pFail <= c.maxFailureProbability;
    var worst := WorstCase(position, a.occupancy.values, a.shockBp.values);
    var maxRate :- MaxRateForDscr(a.operatingCostRatio, grossYield, ltv, c.stressOccupancy, c.minDscr);
    var maxShock := BreakEvenShockBp(a.baseRate, maxRate);
    ShockWithinBreakEvenIffDscrMet(a.operatingCostRatio, grossYield, ltv, c.stressOccupancy,
                                   c.minDscr, a.baseRate, c.stressShockBp);
    Ok(Row(grossYield, ltv, stressRate, stressCf, stressDscr, worst.cashflow, worst.dscr,
           pFail, maxShock, passesStress, passesProb, passesStress && passesProb))
  }

  /** The conditions under which a row can be built: the LTV is a proper
      fraction, the stress rate is positive, both marginals normalise, every
      shock leaves positive interest at that LTV, and the minimum DSCR is
      positive. */
  predicate RowDefined(a: Assumptions, grossYield: real, ltv: real)
  {
    && 0.0 < ltv < 1.0
    && ScenarioRate(a.baseRate, a.constraints.stressShockBp) > 0.0
    && Normalisable(a.shockBp)
    && Normalisable(a.occupancy)
    && AllServiceable(PositionAt(a, grossYield, ltv), a.shockBp.values)
    && a.constraints.minDscr > 0.0
  }

  /** A row is produced exactly under those conditions. */
  lemma RowEvaluatesIff(a: Assumptions, grossYield: real, ltv: real)
    ensures EvaluateRow(a, grossYield, ltv).Ok? <==> RowDefined(a, grossYield, ltv)
  {
  }

  /** The row's errors, in the order the row is built: an LTV outside (0,1),
      then a non-positive stress rate (no interest to cover), then the
      distribution's own error, then a non-positive minimum DSCR. */
  lemma RowErrorOrder(a: Assumptions, grossYield: real, ltv: real)
    ensures !(0.0 < ltv < 1.0) ==> EvaluateRow(a, grossYield, ltv) == Err(LtvOutOfRange)
    ensures 0.0 < ltv < 1.0 && ScenarioRate(a.baseRate, a.constraints.stressShockBp) <= 0.0 ==>
              EvaluateRow(a, grossYield, ltv) == Err(InterestNotPositive)
    ensures && 0.0 < ltv < 1.0
            && ScenarioRate(a.baseRate, a.constraints.stressShockBp) > 0.0
            && FailureProbability(PositionAt(a, grossYield, ltv), a.shockBp, a.occupancy, ThresholdsOf(a)).Err? ==>
              EvaluateRow(a, grossYield, ltv)
              == Err(FailureProbability(PositionAt(a, grossYield, ltv), a.shockBp, a.occupancy, ThresholdsOf(a)).error)
    ensures && 0.0 < ltv < 1.0
            && ScenarioRate(a.baseRate, a.constraints.stressShockBp) > 0.0
            && FailureProbability(PositionAt(a, grossYield, ltv), a.shockBp, a.occupancy, ThresholdsOf(a)).Ok?
            && a.constraints.minDscr <= 0.0 ==>
              EvaluateRow(a, grossYield, ltv) == Err(MinDscrNotPositive)
  {
  }

  /** The row's worst-case fields are the unweighted minima over the
      support of the scenario distribution. */
  lemma WorstFields(a: Assumptions, grossYield: real, ltv: real)
    requires RowDefined(a, grossYield, ltv)
    ensures EvaluateRow(a, grossYield, ltv).Ok?
    ensures |a.occupancy.values| > 0 && |a.shockBp.values| > 0
    ensures EvaluateRow(a, grossYield, ltv).value.worstCashflow
            == WorstCase(PositionAt(a, grossYield, ltv), a.occupancy.values, a.shockBp.values).cashflow
    ensures EvaluateRow(a, grossYield, ltv).value.worstDscr
            == WorstCase(PositionAt(a, grossYield, ltv), a.occupancy.values, a.shockBp.values).dscr
  {
    RowEvaluatesIff(a, grossYield, ltv);
  }

  /** The stress point passes exactly when the distribution's classifier
      would not count it as failed. */
  lemma StressJudgedLikeDistribution(a: Assumptions, grossYield: real, ltv: real)
    requires RowDefined(a, grossYield, ltv)
    ensures EvaluateRow(a, grossYield, ltv).Ok?
    ensures EvaluateRow(a, grossYield, ltv).value.passesStress <==>
              !PointFails(PositionAt(a, grossYield, ltv), a.constraints.stressOccupancy,
                          a.constraints.stressShockBp, ThresholdsOf(a))
  {
    StressFields(a, grossYield, ltv);
    PointFailsIff(PositionAt(a, grossYield, ltv), a.constraints.stressOccupancy,
                  a.constraints.stressShockBp, ThresholdsOf(a));
    assert NormalisedRentFromYield(grossYield, 1.0) == grossYield;
  }

  /** Rows for a sequence of LTVs, in order; the first failing LTV aborts the
      whole sequence with its error and no partial result. */
  function SweepRows(a: Assumptions, grossYield: real, ltvs: seq<real>): (r: Result<seq<Row>>)
    ensures r.Ok? <==> forall i :: 0 <= i < |ltvs| ==> EvaluateRow(a, grossYield, ltvs[i]).Ok?
    ensures r.Ok? ==> |r.value| == |ltvs|
    ensures r.Ok? ==> forall i :: 0 <= i < |ltvs| ==> r.value[i] == EvaluateRow(a, grossYield, ltvs[i]).value
    ensures r.Err? ==> exists i :: 0 <= i < |ltvs| && EvaluateRow(a, grossYield, ltvs[i]) == Err(r.error)
                        && forall k :: 0 <= k < i ==> EvaluateRow(a, grossYield, ltvs[k]).Ok?
  {
    var results := seq(|ltvs|, i requires 0 <= i < |ltvs| => EvaluateRow(a, grossYield, ltvs[i]));
    assert forall i :: 0 <= i < |ltvs| ==> results[i] == EvaluateRow(a, grossYield, ltvs[i]);
    Collect(results)
  }

  /** The whole sweep: resolve the gross yield, build the grid, then one row
      per grid LTV in grid order. */
  function RunSweep(a: Assumptions): (r: Result<seq<Row>>)
    ensures ImpliedGrossYield(a.preset).Err? ==> r == Err(ImpliedGrossYield(a.preset).error)
    ensures ImpliedGrossYield(a.preset).Ok? && a.ltvSweep.step <= 0.0 ==> r == Err(StepNotPositive)
    ensures r.Ok? ==> ImpliedGrossYield(a.preset).Ok? && a.ltvSweep.step > 0.0
    ensures r.Ok? ==> |r.value| == PointCount(a.ltvSweep.start, a.ltvSweep.stop, a.ltvSweep.step)
    ensures r.Ok? ==> forall i :: 0 <= i < |r.value| ==>
              r.value[i].ltv == a.ltvSweep.start + (i as real) * a.ltvSweep.step
              && r.value[i].grossYield == ImpliedGrossYield(a.preset).value
              && (r.value[i].admissible <==> r.value[i].passesStress && r.value[i].passesProbability)
    ensures r.Ok? ==> forall i, j :: 0 <= i < j < |r.value| ==> r.value[i].ltv < r.value[j].ltv
  {
    var grossYield :- ImpliedGrossYield(a.preset);
    var grid :- LtvGrid(a.ltvSweep.start, a.ltvSweep.stop, a.ltvSweep.step);
    SweepRows(a, grossYield, grid)
  }

  /** The stress fields of a row, as the cashflow model and solver give them. */
  lemma StressFields(a: Assumptions, grossYield: real, ltv: real)
    requires RowDefined(a, grossYield, ltv)
    ensures EvaluateRow(a, grossYield, ltv).Ok?
    ensures var rate := ScenarioRate(a.baseRate, a.constraints.stressShockBp);
            var model := CashflowModel(a.operatingCostRatio);
            var row := EvaluateRow(a, grossYield, ltv).value;
            && row.stressRate == rate
            && row.stressCashflow == NetCashflow(model, grossYield, a.constraints.stressOccupancy, rate, ltv)
            && Dscr(model, grossYield, a.constraints.stressOccupancy, rate, ltv) == Ok(row.stressDscr)
            && row.maxShockBp == BreakEvenShockBp(a.baseRate,
                 MaxRateForDscr(a.operatingCostRatio, grossYield, ltv, a.constraints.stressOccupancy, a.constraints.minDscr).value)
  {
    RowEvaluatesIff(a, grossYield, ltv);
  }

  /** The probability field of a row is the distribution's failure probability. */
  lemma ProbabilityField(a: Assumptions, grossYield: real, ltv: real)
    requires RowDefined(a, grossYield, ltv)
    ensures EvaluateRow(a, grossYield, ltv).Ok?
    ensures FailureProbability(PositionAt(a, grossYield, ltv), a.shockBp, a.occupancy, ThresholdsOf(a))
            == Ok(EvaluateRow(a, grossYield, ltv).value.failureProbability)
  {
    RowEvaluatesIff(a, grossYield, ltv);
  }

  /** Any grid LTV whose row cannot be evaluated aborts the whole sweep. */
  /** With a resolved yield and a positive step the sweep is the rows of
      the grid. */
  lemma RunSweepIsSweepRows(a: Assumptions)
    requires ImpliedGrossYield(a.preset).Ok? && a.ltvSweep.step > 0.0
    ensures LtvGrid(a.ltvSweep.start, a.ltvSweep.stop, a.ltvSweep.step).Ok?
    ensures RunSweep(a) == SweepRows(a, ImpliedGrossYield(a.preset).value,
                                     LtvGrid(a.ltvSweep.start, a.ltvSweep.stop, a.ltvSweep.step).value)
  {
  }

  /** Row i of a successful sweep is the row built at grid point i,
      start + i * step. */
  lemma SweepRowIsGridRow(a: Assumptions)
    ensures RunSweep(a).Ok? ==>
              forall i: nat :: i < |RunSweep(a).value| ==>
                EvaluateRow(a, ImpliedGrossYield(a.preset).value, GridPoint(a.ltvSweep.start, a.ltvSweep.step, i))
                == Ok(RunSweep(a).value[i])
  {
    if RunSweep(a).Ok? {
      var gy := ImpliedGrossYield(a.preset).value;
      RunSweepIsSweepRows(a);
      var grid := LtvGrid(a.ltvSweep.start, a.ltvSweep.stop, a.ltvSweep.step).value;
      var rows := SweepRows(a, gy, grid);
      forall i: nat | i < |RunSweep(a).value|
        ensures EvaluateRow(a, gy, GridPoint(a.ltvSweep.start, a.ltvSweep.step, i)) == Ok(RunSweep(a).value[i])
      {
        assert grid[i] == GridPoint(a.ltvSweep.start, a.ltvSweep.step, i);
        assert EvaluateRow(a, gy, grid[i]).Ok?;
        assert rows.value[i] == EvaluateRow(a, gy, grid[i]).value;
      }
    }
  }

  /** With a resolved yield and a positive step, the sweep succeeds exactly
      when the row at every grid point can be built. */
  lemma SweepSucceedsIff(a: Assumptions)
    requires ImpliedGrossYield(a.preset).Ok? && a.ltvSweep.step > 0.0
    ensures RunSweep(a).Ok? <==>
              forall i: nat :: i < PointCount(a.ltvSweep.start, a.ltvSweep.stop, a.ltvSweep.step) ==>
                RowDefined(a, ImpliedGrossYield(a.preset).value, GridPoint(a.ltvSweep.start, a.ltvSweep.step, i))
  {
    var gy := ImpliedGrossYield(a.preset).value;
    RunSweepIsSweepRows(a);
    var grid := LtvGrid(a.ltvSweep.start, a.ltvSweep.stop, a.ltvSweep.step).value;
    forall i: nat | i < |grid|
      ensures EvaluateRow(a, gy, grid[i]).Ok? <==> RowDefined(a, gy, GridPoint(a.ltvSweep.start, a.ltvSweep.step, i))
    {
      RowEvaluatesIff(a, gy, grid[i]);
      assert grid[i] == GridPoint(a.ltvSweep.start, a.ltvSweep.step, i);
    }
  }

  lemma OneBadPointAbortsSweep(a: Assumptions, i: nat)
    requires ImpliedGrossYield(a.preset).Ok? && a.ltvSweep.step > 0.0
    requires i < |LtvGrid(a.ltvSweep.start, a.ltvSweep.stop, a.ltvSweep.step).value|
    requires !RowDefined(a, ImpliedGrossYield(a.preset).value,
                         LtvGrid(a.ltvSweep.start, a.ltvSweep.stop, a.ltvSweep.step).value[i])
    ensures RunSweep(a).Err?
  {
    RowEvaluatesIff(a, ImpliedGrossYield(a.preset).value,
                    LtvGrid(a.ltvSweep.start, a.ltvSweep.stop, a.ltvSweep.step).value[i]);
  }

  // ---------------------------------------------------------------------
  // Leverage never helps

  /** A stress position is healthy: positive yield, cost ratio below 1 and a
      positive stress occupancy, so the stress NOI is positive. */
  predicate HealthyStress(a: Assumptions, grossYield: real)
  {
    grossYield > 0.0 && a.operatingCostRatio < 1.0 && a.constraints.stressOccupancy > 0.0
  }

  /** More leverage strictly worsens the stress cashflow, the stress DSCR and
      the tolerable shock, so passing the stress test at a higher LTV implies
      passing it at every lower one. */
  lemma StressWorsensWithLeverage(a: Assumptions, grossYield: real, ltv1: real, ltv2: real)
    requires ltv1 < ltv2
    requires RowDefined(a, grossYield, ltv1) && RowDefined(a, grossYield, ltv2)
    requires HealthyStress(a, grossYield)
    ensures EvaluateRow(a, grossYield, ltv1).Ok? && EvaluateRow(a, grossYield, ltv2).Ok?
    ensures EvaluateRow(a, grossYield, ltv2).value.stressCashflow < EvaluateRow(a, grossYield, ltv1).value.stressCashflow
    ensures EvaluateRow(a, grossYield, ltv2).value.stressDscr < EvaluateRow(a, grossYield, ltv1).value.stressDscr
    ensures EvaluateRow(a, grossYield, ltv2).value.maxShockBp < EvaluateRow(a, grossYield, ltv1).value.maxShockBp
    ensures EvaluateRow(a, grossYield, ltv2).value.passesStress ==> EvaluateRow(a, grossYield, ltv1).value.passesStress
  {
    var c := a.constraints;
    var model := CashflowModel(a.operatingCostRatio);
    var rate := ScenarioRate(a.baseRate, c.stressShockBp);
    StressFields(a, grossYield, ltv1);
    StressFields(a, grossYield, ltv2);
    assert Noi(model, grossYield, c.stressOccupancy) > 0.0;
    DscrFallsWithDebt(model, grossYield, c.stressOccupancy, rate, ltv1, ltv2);
    MaxRateFallsWithLtv(a.operatingCostRatio, grossYield, c.stressOccupancy, c.minDscr, a.baseRate, ltv1, ltv2);
    assert rate > 0.0;
    InterestGrowsWithDebt(rate, ltv1, ltv2);
  }

  /** At a higher debt every scenario point that failed still fails. */
  lemma FailureSpreadsWithDebt(p1: Position, p2: Position, occupancy: real, shockBp: real, t: Thresholds)
    requires p2 == p1.(debt := p2.debt)
    requires 0.0 < p1.debt < p2.debt
    requires Serviceable(p2, shockBp)
    ensures Serviceable(p1, shockBp)
    ensures PointFails(p1, occupancy, shockBp, t) ==> PointFails(p2, occupancy, shockBp, t)
  {
    var rate := ScenarioRate(p1.baseRate, shockBp);
    assert rate > 0.0;
    InterestGrowsWithDebt(rate, p1.debt, p2.debt);
    if Noi(p1.model, p1.grossRent, occupancy) > 0.0 {
      DscrFallsWithDebt(p1.model, p1.grossRent, occupancy, rate, p1.debt, p2.debt);
    }
  }

  /** Row-wise, the failed mass can only grow with debt. */
  lemma RowFailedMassGrowsWithDebt(p1: Position, p2: Position, occ: Marginal, shock: Marginal, t: Thresholds, i: nat)
    requires p2 == p1.(debt := p2.debt)
    requires 0.0 < p1.debt < p2.debt
    requires IsDistribution(occ) && IsDistribution(shock)
    requires AllServiceable(p2, shock.values)
    requires i < |occ.values|
    ensures Sum(RowFailedMass(p1, occ, shock, t, i)) <= Sum(RowFailedMass(p2, occ, shock, t, i))
  {
    var row1 := RowFailedMass(p1, occ, shock, t, i);
    var row2 := RowFailedMass(p2, occ, shock, t, i);
    forall j | 0 <= j < |row1|
      ensures row1[j] <= row2[j]
    {
      FailureSpreadsWithDebt(p1, p2, occ.values[i], shock.values[j], t);
      assert occ.weights[i] >= 0.0 && shock.weights[j] >= 0.0;
    }
    SumMonotone(row1, row2);
  }

  /** The failure probability can only grow with debt. */
  lemma FailureProbabilityGrowsWithDebt(p1: Position, p2: Position, shocks: Marginal, occs: Marginal, t: Thresholds)
    requires p2 == p1.(debt := p2.debt)
    requires 0.0 < p1.debt < p2.debt
    requires FailureProbability(p2, shocks, occs, t).Ok?
    ensures FailureProbability(p1, shocks, occs, t).Ok?
    ensures FailureProbability(p1, shocks, occs, t).value <= FailureProbability(p2, shocks, occs, t).value
  {
    var on := NormaliseWeights(occs).value;
    var sn := NormaliseWeights(shocks).value;
    forall j | 0 <= j < |sn.values|
      ensures Serviceable(p1, sn.values[j])
    {
      FailureSpreadsWithDebt(p1, p2, 0.0, sn.values[j], t);
    }
    var rows1 := FailedMassByOccupancy(p1, on, sn, t);
    var rows2 := FailedMassByOccupancy(p2, on, sn, t);
    forall i | 0 <= i < |rows1|
      ensures rows1[i] <= rows2[i]
    {
      RowFailedMassGrowsWithDebt(p1, p2, on, sn, t, i);
    }
    SumMonotone(rows1, rows2);
  }

  /** The admissible LTVs form a frontier: with a healthy stress position,
      an LTV that is admissible makes every lower admissible-domain LTV
      admissible too. */
  lemma AdmissibleIsDownwardClosed(a: Assumptions, grossYield: real, ltv1: real, ltv2: real)
    requires 0.0 < ltv1 < ltv2
    requires RowDefined(a, grossYield, ltv2)
    requires HealthyStress(a, grossYield)
    ensures RowDefined(a, grossYield, ltv1)
    ensures EvaluateRow(a, grossYield, ltv1).Ok? && EvaluateRow(a, grossYield, ltv2).Ok?
    ensures EvaluateRow(a, grossYield, ltv2).value.admissible ==> EvaluateRow(a, grossYield, ltv1).value.admissible
  {
    var p1 := PositionAt(a, grossYield, ltv1);
    var p2 := PositionAt(a, grossYield, ltv2);
    FailureProbabilityGrowsWithDebt(p1, p2, a.shockBp, a.occupancy, ThresholdsOf(a));
    ProbabilityField(a, grossYield, ltv1);
    ProbabilityField(a, grossYield, ltv2);
    StressWorsensWithLeverage(a, grossYield, ltv1, ltv2);
  }
}

=== FILE: weights.dfy ===
/** Discrete marginal distributions: exact sums and the defensive
    re-normalisation of weights to a probability vector. */
module Weights {
  import opened Failures

  /** A discrete distribution given as parallel values and weights. */
  datatype Marginal = Marginal(values: seq<real>, weights: seq<real>)

  /** Exact sum, accumulated left to right. */
  function Sum(s: seq<real>): real
  {
    if |s| == 0 then 0.0 else Sum(s[..|s| - 1]) + s[|s| - 1]
  }

  predicate NonNegative(s: seq<real>)
  {
    forall i :: 0 <= i < |s| ==> s[i] >= 0.0
  }

  /** A probability vector over parallel values. */
  predicate IsDistribution(d: Marginal)
  {
    |d.values| == |d.weights| && NonNegative(d.weights) && Sum(d.weights) == 1.0
  }

  /** Every entry multiplied by a. */
  function Scale(a: real, s: seq<real>): (r: seq<real>)
    ensures |r| == |s|
    ensures forall i :: 0 <= i < |s| ==> r[i] == a * s[i]
  {
    seq(|s|, i requires 0 <= i < |s| => a * s[i])
  }

  /** Every entry divided by k. */
  function DivideAll(s: seq<real>, k: real): (r: seq<real>)
    requires k != 0.0
    ensures |r| == |s|
    ensures forall i :: 0 <= i < |s| ==> r[i] == s[i] / k && r[i] * k == s[i]
  {
    seq(|s|, i requires 0 <= i < |s| => s[i] / k)
  }

  lemma SumPrefixStep(s: seq<real>, k: nat)
    requires k < |s|
    ensures Sum(s[..k + 1]) == Sum(s[..k]) + s[k]
  {
    assert s[..k + 1][..k] == s[..k];
  }

  lemma {:induction false} SumScale(a: real, s: seq<real>)
    ensures Sum(Scale(a, s)) == a * Sum(s)
    decreases |s|
  {
    if |s| > 0 {
      var s' := s[..|s| - 1];
      forall i | 0 <= i < |s'|
        ensures Scale(a, s)[..|s| - 1][i] == Scale(a, s')[i]
      {
        assert s'[i] == s[i];
      }
      assert Scale(a, s)[..|s| - 1] == Scale(a, s');
      SumScale(a, s');
    }
  }

  lemma SumDivided(s: seq<real>, k: real)
    requires k != 0.0
    ensures Sum(DivideAll(s, k)) == Sum(s) / k
  {
    forall i | 0 <= i < |s|
      ensures DivideAll(s, k)[i] == Scale(1.0 / k, s)[i]
    {
      assert s[i] / k == (1.0 / k) * s[i];
    }
    assert DivideAll(s, k) == Scale(1.0 / k, s);
    SumScale(1.0 / k, s);
    assert (1.0 / k) * Sum(s) == Sum(s) / k;
  }

  lemma {:induction false} SumNonNegative(s: seq<real>)
    requires NonNegative(s)
    ensures Sum(s) >= 0.0
    decreases |s|
  {
    if |s| > 0 {
      SumNonNegative(s[..|s| - 1]);
    }
  }

  lemma {:induction false} SumOfZeros(s: seq<real>)
    requires forall i :: 0 <= i < |s| ==> s[i] == 0.0
    ensures Sum(s) == 0.0
    decreases |s|
  {
    if |s| > 0 {
      SumOfZeros(s[..|s| - 1]);
    }
  }

  /** Pointwise domination carries over to the sums. */
  lemma {:induction false} SumMonotone(a: seq<real>, b: seq<real>)
    requires |a| == |b|
    requires forall i :: 0 <= i < |a| ==> a[i] <= b[i]
    ensures Sum(a) <= Sum(b)
    decreases |a|
  {
    if |a| > 0 {
      SumMonotone(a[..|a| - 1], b[..|b| - 1]);
    }
  }

  /** The marginals that can be normalised: matching lengths, no negative
      weight and a positive total. */
  predicate Normalisable(d: Marginal)
  {
    |d.values| == |d.weights| && NonNegative(d.weights) && Sum(d.weights) > 0.0
  }

  /** Dividing non-negative weights by their positive total gives a
      probability vector. */
  lemma DividedByTotalIsProbability(s: seq<real>)
    requires NonNegative(s) && Sum(s) > 0.0
    ensures NonNegative(DivideAll(s, Sum(s)))
    ensures Sum(DivideAll(s, Sum(s))) == 1.0
  {
    var total := Sum(s);
    SumDivided(s, total);
    SelfQuotient(total);
    forall i | 0 <= i < |s|
      ensures DivideAll(s, total)[i] >= 0.0
    {
      QuotientSign(s[i], total);
    }
  }

  lemma SelfQuotient(k: real)
    requires k != 0.0
    ensures k / k == 1.0
  {
  }

  /** Dividing by a positive number keeps the sign. */
  lemma QuotientSign(x: real, k: real)
    requires k > 0.0
    ensures x / k >= 0.0 <==> x >= 0.0
    ensures x / k > 0.0 <==> x > 0.0
  {
    assert (x / k) * k == x;
    if x / k < 0.0 {
      assert (x / k) * k < 0.0;
    } else if x / k > 0.0 {
      assert (x / k) * k > 0.0;
    }
  }

  /** Validates a distribution and rescales its weights to sum to 1; the
      checks run in the order length, sign, total. */
  function NormaliseWeights(d: Marginal): (r: Result<Marginal>)
    ensures r.Ok? <==> Normalisable(d)
    ensures |d.values| != |d.weights| ==> r == Err(LengthMismatch)
    ensures |d.values| == |d.weights| && !NonNegative(d.weights) ==> r == Err(NegativeWeight)
    ensures |d.values| == |d.weights| && NonNegative(d.weights) && Sum(d.weights) <= 0.0 ==>
              r == Err(WeightSumNotPositive)
    ensures r.Ok? ==> IsDistribution(r.value) && r.value.values == d.values && |d.values| > 0
    ensures r.Ok? ==> forall i :: 0 <= i < |d.weights| ==> r.value.weights[i] == d.weights[i] / Sum(d.weights)
  {
    if |d.values| != |d.weights| then Err(LengthMismatch)
    else if !NonNegative(d.weights) then Err(NegativeWeight)
    else if Sum(d.weights) <= 0.0 then Err(WeightSumNotPositive)
    else
      DividedByTotalIsProbability(d.weights);
      Ok(Marginal(d.values, DivideAll(d.weights, Sum(d.weights))))
  }

  /** Normalising is idempotent: a normalised distribution comes back unchanged. */
  lemma NormaliseIdempotent(d: Marginal)
    requires NormaliseWeights(d).Ok?
    ensures NormaliseWeights(NormaliseWeights(d).value) == NormaliseWeights(d)
  {
    var n := NormaliseWeights(d).value;
    assert DivideAll(n.weights, 1.0) == n.weights;
  }
}
